=== FILE: README.md ===
# fty-common-logging in Dafny

A model of the logging front end of 42ity's fty-common-logging: one
`Ftylog` instance wrapping a log4cplus logger, the `ManageFtyLog`
singleton that owns the process-wide default instance, the C wrappers
around them, and the logging macros.

An instance is a `Logger.State`. It holds:

- the agent name, the configuration file path and the layout pattern;
- the logger's level and its appenders;
- its view of the root logger's appenders;
- the watch thread it owns, if any, with a trace of thread starts and stops;
- the records forwarded to log4cplus (the sink).

Things outside the library become parameters:

- **Environment.** `Env` carries the values of `BIOS_LOG_LEVEL`, `BIOS_LOG_INIT_LEVEL` and `BIOS_LOG_PATTERN`.
- **Readable files.** `FileSystem` maps each path that `fopen(path, "r")` accepts to what log4cplus's property configurator would read from it.
- **Message rendering.** `Rendering` is the outcome of `vasprintf`: an allocation failure, a null buffer, or the rendered text.
- **Formatting.** `fmt::format` is passed in as a function.

The process is a `Registry.Process`, a heap of instances addressed by
pointers. Pointer 0 is NULL. The static default instance lives at a fixed
address. Two pieces of log4cplus state are process-wide:

- **The root logger.** Every instance's view of the root's appenders agrees (`Registry.SharedRoot`). An operation that changes the root changes every view.
- **`Logger::shutdown()`.** `init` and the destructor call it, and it strips the appenders of every logger and of the root.

Modules:

| module | file | contents |
|---|---|---|
| `Wrappers` | wrappers.dfy | `Option` |
| `Levels` | levels.dfy | log4cplus level numbers and the `BIOS_LOG_LEVEL` / `BIOS_LOG_INIT_LEVEL` parsers |
| `Appenders` | appenders.dfy | appender lists, removing the first console appender, back-filling thresholds |
| `Watch` | watch.dfy | ownership of the configuration watch thread |
| `Logger` | logger.dfy | one `Ftylog`: init/change, `loadAppenders`, verbose mode, setters, queries, `insertLog` |
| `Registry` | registry.dfy | `ManageFtyLog` and the `ftylog_*` C wrappers |
| `Macros` | macros.dfy | `log_*_log`, `log_*`, `fmtlog`, `fty::logger::format` |
| `Context` | context.dfy | `setContext` / `clearContext` on the mapped diagnostic context |

Behaviours of the code worth knowing, all modelled as written:

- **Verbose appender.** Verbose mode adds `ConsoleAppender(false, true)`. By the source's own note on the first argument, that appender writes to stdout. It gets no threshold of its own.
- **`ftylog_isLogFatal`.** It answers `isLogTrace()`. `Registry.CIsLogFatalAsksTrace` states exactly when this differs from `isLogFatal()`.
- **Rendering failures.** When `vasprintf` fails (-1), `insertLog` prints a fixed allocation-error line to stderr and drops the message. When it leaves a null buffer, `insertLog` logs `"Buffer == NULL"` at ERROR through the same logger instead of the message.
- **Watch thread.** The watch thread re-runs log4cplus's property configurator when the file changes. It does not run `loadAppenders`.
- **NOT_SET as "nothing saved".** `loadAppenders` records "no saved level" as NOT_SET. A logger whose level is NOT_SET when an init level is in force therefore keeps the init level after a console fallback. This happens after a file sets the logger to INHERITED and `setConfigFile` then falls back to the console; for an empty or unknown init level the logger stays silent. `Logger.NotSetKeepsInitLevel` states it.
- **Order of level restore.** On the file branch, the level saved before `BIOS_LOG_INIT_LEVEL` took effect is restored before `doConfigure`. A level in the file therefore wins. On the console branch, it is restored at the very end.
- **`setConsoleAppender`.** It removes every appender of the logger, not only console ones.
- **Creating or deleting any instance** strips every other instance's appenders, the default instance's console appender included, through the shutdown in `init` and in the destructor.

## Model

| member | source | states |
|---|---|---|
| Levels.ValueOrderIsOrdinalOrder | include/fty-log/fty_logger.h:62-78 | the log4cplus level numbers follow the order of the levels, and distinct levels have distinct numbers |
| Levels.OffAboveEverySeverity | src/fty_logger.cpp:352-366 | every message level lies strictly between NOT_SET and OFF |
| Levels.ParseDefinite | src/fty_logger.cpp:303-327 | a string is accepted exactly when it is one of the seven level names; the level it yields is the one that name denotes |
| Levels.ParseEnvName | src/fty_logger.cpp:303-327 | every level's environment name parses back to that level (round trip) |
| Levels.LevelFromEnv | src/fty_logger.cpp:337-343 | BIOS_LOG_LEVEL: a level name gives its level; anything else, including the empty string, gives TRACE |
| Levels.InitLevelFromEnv | src/fty_logger.cpp:329-335 | BIOS_LOG_INIT_LEVEL: a level name gives its level; anything else gives OFF |
| Levels.FallbacksDiffer | src/fty_logger.cpp:329-343 | the two parsers agree on every level name and differ on every other string: TRACE against OFF |
| Logger.IsLogLevel | src/fty_logger.cpp:355-358 | for every level log4cplus names, a message at that level passes exactly when the logger's level is at or below it in the order of the levels |
| Logger.IsLog | src/fty_logger.cpp:360-365 | isLogTrace ... isLogFatal hold exactly when the logger's level is at or below the queried one |
| Logger.IsLogOff | src/fty_logger.cpp:366 | isLogOff holds exactly at OFF, and then none of isLogTrace ... isLogFatal does |
| Logger.SetLogLevel | src/fty_logger.cpp:346-352 | the setters change the level and nothing else |
| Logger.GatingAfterSet | src/fty_logger.cpp:355-366 | after setting level x, isLog(y) holds exactly when x is at or below y, and isLogOff exactly when x is OFF |
| Logger.GatingMonotone | src/fty_logger.cpp:355-358 | a message level that passes the gate keeps passing at every higher level |
| Logger.SetLevelFromEnvDefinite | src/fty_logger.cpp:303-327 | answers true exactly for the seven level names, and then sets the named level and nothing else; otherwise changes nothing |
| Logger.InsertLog | src/fty_logger.cpp:369-400 | a message below the logger's level changes nothing. A failed render changes nothing. A rendered message adds exactly one record with its level, text and call site. A null buffer adds only the ERROR report, gated again. Only the sink changes, and every added record passes the gate. |
| Logger.GatingScenario | src/fty_logger.cpp:346-400 | at TRACE a DEBUG message is forwarded; after setLogLevelWarning an INFO message is not and an ERROR message is |
| Logger.SelfLog | src/fty_logger.cpp:258-295 | loadAppenders' own reports go through the same gate as user messages, stamped with their call site |
| Logger.SetConsoleAppender | src/fty_logger.cpp:139-153 | afterwards the logger has exactly one appender, the stderr console appender named "Console"+agent with the instance's pattern; nothing else changes |
| Appenders.FirstConsole | src/fty_logger.cpp:157-165 | the position of the first console appender: none before it, and the one there is a console appender (or the list has none) |
| Appenders.RemoveFirstConsole | src/fty_logger.cpp:155-167 | removes exactly the first console appender and keeps the rest in order; a list without one is unchanged |
| Appenders.RemoveFirstConsoleAt | src/fty_logger.cpp:155-167 | after the removal, positions before the first console appender are unchanged and later ones shift down by one |
| Appenders.RemoveFirstConsoleCount | src/fty_logger.cpp:155-167 | the removal takes away one console appender when there is one, and none otherwise |
| Appenders.RemoveFirstConsoleKeepsOthers | src/fty_logger.cpp:155-167 | the non-console appenders are the same before and after the removal |
| Appenders.Backfill | src/fty_logger.cpp:184-190 | every appender keeps its kind, name and layout; a threshold that was NOT_SET becomes the saved level, and an explicit one stays |
| Appenders.BackfillConsoleCount | src/fty_logger.cpp:184-190 | back-filling thresholds does not change how many console appenders there are |
| Appenders.BackfillNonConsole | src/fty_logger.cpp:184-190 | back-filling commutes with dropping the console appenders |
| Appenders.BackfillOfExplicit | src/fty_logger.cpp:187-189 | appenders that all have explicit thresholds are left as they are |
| Appenders.ConsoleCountAppend | src/fty_logger.cpp:199 | the console count of a concatenation is the sum of the counts |
| Appenders.NonConsoleAppend | src/fty_logger.cpp:199 | dropping console appenders distributes over concatenation |
| Appenders.NonConsole | src/fty_logger.cpp:161 | keeps exactly the non-console appenders: every non-console appender of the input is in the result, nothing else is, and the length is the input's minus its console appenders |
| Appenders.NonConsoleMultiset | src/fty_logger.cpp:161 | each non-console appender occurs in the result exactly as often as in the input, and no console appender occurs |
| Appenders.NonConsoleOccurrences | src/fty_logger.cpp:161 | the same count for one given appender, by induction on the list |
| Appenders.BackfillNotSet | src/fty_logger.cpp:170-190 | back-filling with NOT_SET, the saved level of a logger without a level, changes nothing |
| Appenders.BackfillTwice | src/fty_logger.cpp:185-190 | after a backfill with a real level, a second backfill with any level changes nothing |
| Logger.SetVerboseMode | src/fty_logger.cpp:170-200 | level TRACE. The first console appender of the logger and of the root is removed. Each remaining appender of the logger keeps its position and gets the saved level when it had no threshold. The stdout "Verbose-"+agent console appender is added last. Nothing else changes. |
| Logger.VerboseConsoleCount | src/fty_logger.cpp:181-199 | verbose mode leaves the number of console appenders as it was, or makes it one when there was none |
| Logger.VerboseNonConsole | src/fty_logger.cpp:181-199 | the non-console appenders after verbose mode are those before, in the same order, with missing thresholds set to the saved level |
| Logger.VerboseTwiceKeepsThresholds | src/fty_logger.cpp:170-200 | when the logger had a level, a second verbose call leaves the non-console appenders as the first call left them |
| Logger.VerboseTwiceFromNotSet | src/fty_logger.cpp:170-200 | when the logger had no level, the first call leaves the non-console appenders unchanged and the second gives their unset thresholds TRACE |
| Logger.VerboseTwiceConsoles | src/fty_logger.cpp:181-199 | with at most one console appender to begin with, two verbose calls leave exactly one |
| Logger.Restore | src/fty_logger.cpp:278-280 | the saved level is put back only when one was saved |
| Logger.EnterLoad | src/fty_logger.cpp:227-249 | a set BIOS_LOG_INIT_LEVEL replaces the level for the reload; the watch thread is stopped and released |
| Logger.LoadFile | src/fty_logger.cpp:275-286 | a readable file leaves the logger with the appenders the file gives it (none when the file does not name it), replaces the root's appenders when the file gives some, sets the file's level for the logger when it names one and the restored level otherwise, and starts watching that path |
| Logger.LoadConsole | src/fty_logger.cpp:288-299 | the fallback installs the single default console appender and then restores the saved level |
| Logger.LoadReadable | src/fty_logger.cpp:271-287 | the file branch: the file's appenders, root and level, and a watch thread on it; with an init level set, the "Load Config file" report is forwarded exactly when the level in force lets INFO through, and nothing else reaches the sink |
| Logger.LoadUnreadable | src/fty_logger.cpp:251-299 | the console branch: one default console appender and the restored level, an unreadable path cleared. Without an init level only the gated unreadable-file error is forwarded; with one, the unreadable-file error (or the missing-file warning), then the console-fallback report, each gated by the level in force |
| Logger.LoadAppenders | src/fty_logger.cpp:217-300 | Any previous watch thread is stopped; a new one starts exactly when the path is non-empty and readable. An unreadable path is cleared. On a readable file the logger ends with the appenders the file gives it (none when the file does not name it) and the file's level, defaulting to the restored level. Otherwise it ends with exactly one default console appender and the restored level: the caller's, or the init level when the caller's was NOT_SET. Ownership of the watch thread is kept. |
| Logger.InitLevelIsTransient | src/fty_logger.cpp:227-240 | once the logger has a level, BIOS_LOG_INIT_LEVEL changes none of the settings a reload ends with; on the console branch the level is exactly the one before |
| Logger.LoadAppendersSelfLogs | src/fty_logger.cpp:252-295 | without BIOS_LOG_INIT_LEVEL a reload forwards only the unreadable-file error, gated by the logger's level. With it, every report is gated by the init level: "Load Config file" for a readable file; otherwise the unreadable-file error or the missing-file warning, then the console-fallback report. With an init level of OFF it forwards nothing |
| Logger.NotSetKeepsInitLevel | src/fty_logger.cpp:228-299 | a logger at NOT_SET that reloads under an init level and falls back to the console keeps the init level, OFF for an unknown string, since NOT_SET also means nothing was saved |
| Logger.LoadAppendersIdempotent | src/fty_logger.cpp:217-300 | reloading twice ends in the same settings as reloading once |
| Logger.LoadAppendersSettingsOnly | src/fty_logger.cpp:217-300 | a reload's outcome depends only on the settings it starts from, not on the watch history or the sink |
| Logger.PatternFromEnv | src/fty_logger.cpp:129-136 | a set, non-empty BIOS_LOG_PATTERN replaces the pattern; otherwise it is kept |
| Logger.Init | src/fty_logger.cpp:65-92 | name taken; pattern from BIOS_LOG_PATTERN or the default; the path kept only when readable. The previous watch thread is stopped and recorded as stopped, and a new one is started exactly when the file is readable. Without a readable file: exactly one default console appender, no root appenders, the level from BIOS_LOG_LEVEL. With one: the file's appenders for the logger, the file's root appenders or none, and the file's level for the logger or else the one from BIOS_LOG_LEVEL. |
| Logger.New | src/fty_logger.cpp:49-53 | a new instance owns its watch thread, which is started only for a readable file, and has the name, pattern, appenders, root and level that init gives |
| Logger.InitForgetsPast | src/fty_logger.cpp:65-92 | reinitialising forgets every earlier setting: any two instances reinitialised alike agree |
| Logger.ChangeIsFreshInit | src/fty_logger.cpp:117-120 | change(name, file) ends in the settings of a newly constructed instance with that name and file |
| Logger.SetConfigFile | src/fty_logger.cpp:111-115 | the new path is kept and watched exactly when readable; the previous watch thread is stopped and recorded as stopped. Readable: the file's appenders, root and level as in loadAppenders. Otherwise: one default console appender, the root kept, the level as restored. Name and pattern are unchanged. |
| Logger.Destroy | src/fty_logger.cpp:95-102 | the watch thread is stopped and released, no live thread remains in the instance's history, and no appender remains |
| Watch.Stop | src/fty_logger.cpp:245-249 | no thread is left, a running one is recorded as stopped, and ownership is kept |
| Watch.Start | src/fty_logger.cpp:286 | starting from no thread leaves exactly the new one, owned |
| Watch.AtMostOneWatcher | src/fty_logger.cpp:245-286 | along any start/stop history an instance owns, at most one watch thread is live at any point, and one is live exactly when the slot holds it |
| Registry.Boot | src/fty_logger.cpp:414 | the default instance is named "ftylog", uses /etc/fty/ftylog.cfg when readable, and is the only instance |
| Registry.GetInstance | src/fty_logger.cpp:416-419 | returns a live, non-null instance |
| Registry.GetInstanceIsStable | src/fty_logger.cpp:416-419 | every call returns the same address |
| Registry.Sync | src/fty_logger.cpp:443-528 | a root-changing wrapper replaces its instance; the others change only in the root they see, which becomes the replaced instance's root, since there is one root logger |
| Registry.Reinit | src/fty_logger.cpp:65-92 | reinitialising one instance: Logger::shutdown() strips every other instance's appenders and keeps their levels, paths and watch threads, and all see the root the reinitialised instance ends with |
| Registry.Admit | src/fty_logger.cpp:431-434 | constructing an instance at the next address strips every existing instance's appenders, and all see its root |
| Registry.SetInstance | src/fty_logger.cpp:421-424 | the default instance is reinitialised in place. It keeps its address and ends with the settings of a new instance with that name and file. Its previous watch thread is stopped and recorded as stopped, and a new one is started exactly for a readable file. No instance is created or freed. Every other instance loses its appenders and sees the default's root; nothing else of it changes. |
| Registry.CNew | src/fty_logger.cpp:431-434 | a new instance, exactly as constructed, at a fresh non-null address. Every existing instance loses its appenders and sees the new instance's root; nothing else of it changes. |
| Registry.CDelete | src/fty_logger.cpp:437-440 | NULL is ignored. Otherwise the destructor runs: that instance's watch thread is stopped, leaving no live thread in its history, and the instance is freed. Every remaining instance loses its appenders and the root is emptied. |
| Registry.Put | src/fty_logger.cpp:449-517 | replaces one instance and keeps every other one; a shared root stays shared when the root is untouched |
| Registry.CSetConfigFile | src/fty_logger.cpp:443-446 | NULL changes nothing. Otherwise the addressed instance reloads with the new path, and the others change only in the root they see. |
| Registry.CSetLogLevel | src/fty_logger.cpp:449-477 | NULL changes nothing; otherwise only the addressed instance's level changes: its sink, watch thread and every setting but the level stay as they were, and no other instance changes |
| Registry.CIsLog | src/fty_logger.cpp:480-508 | false for NULL; otherwise the instance's query, with the Fatal query answered by isLogTrace |
| Registry.CIsLogFatalAsksTrace | src/fty_logger.cpp:505-508 | ftylog_isLogFatal disagrees with isLogFatal exactly when the level is DEBUG, INFO, WARN, ERROR or FATAL |
| Registry.CInsertLog | src/fty_logger.cpp:511-517 | NULL changes nothing. Otherwise only that instance's sink changes: a rendered message adds one record at the given level exactly when the gate passes; a failed allocation changes nothing; a null buffer adds the ERROR "Buffer == NULL" report when both the given level and ERROR pass the gate |
| Registry.CSetVerboseMode | src/fty_logger.cpp:519-528 | NULL changes nothing. Otherwise that instance goes verbose (level TRACE, verbose appender last), and every other instance sees the root without its first console appender. |
| Macros.MacroLevel | include/fty-log/fty_logger.h:62-97 | the number each macro passes is the log4cplus number of the level it is named after |
| Macros.MacroLevelsAreLog4cplus | include/fty-log/fty_logger.h:62-97 | the macro level numbers are the log4cplus level numbers, in the same order |
| Macros.LogExplicit | include/fty-log/fty_logger.h:50-78 | log_*_log passes the macro's number to insertLog. A rendered message becomes one record at that level exactly when the logger's gate passes; a failed allocation forwards nothing; a null buffer forwards the ERROR "Buffer == NULL" report when both the macro's level and ERROR pass. Only the logger's sink changes; no other instance changes |
| Macros.LogDefault | include/fty-log/fty_logger.h:80-97 | log_* on the default instance: the same three rendering outcomes, only the default's sink changes, no setting and no other instance changes, and ownership of watch threads and the shared root are kept |
| Macros.Format | include/fty-log/fty_logger.h:136-145 | a template without arguments is returned unchanged |
| Macros.FmtLog | include/fty-log/fty_logger.h:131-132 | with no arguments, the template itself becomes insertLog's printf template on the default instance |
| Context.ClearContext | src/fty_logger.cpp:210-213 | no tag remains, whatever was there |
| Context.SetContext | src/fty_logger.cpp:202-208 | the context ends equal to the given map, whatever it held before; with an empty map that is clearContext |

## Left out

- **log4cplus internals.** The following are not modelled: rendering of patterns and layouts, appender output, and the property configurator's parsing. A readable file's effect is given by `Config`.
- **Watch thread behaviour.** Its 60-second polling and its reconfiguration when the file changes happen on another thread inside log4cplus. Only its start and stop are modelled.
- **Same-name loggers and other loggers in a file.** Two instances with the same name share one log4cplus logger, and a configuration file may configure loggers of other instances. The model keeps each instance's logger to itself and applies a file only to the loading instance's logger and to the root.
- **Concurrency.** Not modelled. The mapped diagnostic context is modelled as a map replaced as a whole; its thread-locality is not modelled, and records do not carry it.
- **`Ftylog()` default constructor.** Its name comes from the calling thread's id, which is not modelled.
- **`getAgentName`.** It is a field read: `State.agentName`.
- **`setVeboseMode` / `ftylog_setVeboseMode`.** They only forward to `setVerboseMode` / `ftylog_setVerboseMode`.
- **Rendering of messages.** `vasprintf`'s rendering and its allocation failure are the `Rendering` parameter. The stderr line printed on a -1 return is not modelled. When `fmtlog` passes formatted text that contains `%` as a printf template with no arguments, the outcome is left to that parameter.
- **Null-buffer report.** `InsertLog`: the "Buffer == NULL" report is assumed to render.
- Logger.SelfLog: loadAppenders' own reports are assumed to render; an allocation failure or a null buffer while rendering them is not modelled.
- Logger.SetVerboseMode: appenders are values. In log4cplus they are shared objects, and the backfill sets the threshold in place, so an appender attached both to the logger and to the root would get the new threshold in the root too. The model changes only the logger's copies.
- **Call sites of library reports.** The file and line of the library's own reports are recorded as `src/fty_logger.cpp` and the line of the report. The line of a `__LINE__` expansion inside a multi-line macro call is not modelled.
- **`ftylog_delete` on the default instance.** It would free a static object. `Registry.CDelete` excludes it by precondition.
- **C++ macros with a null logger.** `log_*_log` in C++ does not check for NULL, so `Macros.LogExplicit` requires a live instance.
- **Preprocessor-only content.** The CXXTOOLS macro workaround, `LOG_START` / `LOG_END` / `LOG_END_ABNORMAL` (they are `log_debug` / `log_error` calls), `fty_coverity_stub.h` and `fty_log.h` hold no logic beyond what is modelled.
- **Integer widths.** Level numbers and line numbers are unbounded integers; the library never does arithmetic on them.

=== FILE: appenders.dfy ===
/** Appender lists of a log4cplus logger as Ftylog manipulates them: the
    default console appender, removal of the first console appender, and
    the threshold backfill of verbose mode (src/fty_logger.cpp:139-200). */
module Appenders {
  import opened Levels

  /** A console appender writes to stderr or stdout; every other appender
      class (file, syslog, ...) is opaque here. The source compares exact
      classes with typeid, so a subclass of ConsoleAppender is Other. */
  datatype Kind = Console(toStderr: bool) | Other(className: string)

  /** An appender: its class, name, layout pattern and optional threshold
      (NotSet when none was configured). */
  datatype Appender = Appender(kind: Kind, name: string, layout: string, threshold: LogLevel)

  predicate IsConsole(a: Appender) {
    a.kind.Console?
  }

  /** Number of console appenders in a list. */
  function ConsoleCount(xs: seq<Appender>): nat {
    if |xs| == 0 then 0
    else (if IsConsole(xs[0]) then 1 else 0) + ConsoleCount(xs[1..])
  }

  /** The non-console appenders of a list, in order: every one is kept, as
      often as it occurs, and nothing else is. */
  function NonConsole(xs: seq<Appender>): (r: seq<Appender>)
    ensures |r| == |xs| - ConsoleCount(xs)
    ensures forall a | a in r :: a in xs && !IsConsole(a)
    ensures forall a | a in xs && !IsConsole(a) :: a in r
  {
    if |xs| == 0 then []
    else (if IsConsole(xs[0]) then [] else [xs[0]]) + NonConsole(xs[1..])
  }

  /** NonConsole keeps every non-console appender exactly as often as the
      input holds it, and no console appender. */
  lemma NonConsoleMultiset(xs: seq<Appender>)
    ensures multiset(NonConsole(xs)) <= multiset(xs)
    ensures forall a :: multiset(NonConsole(xs))[a] == (if IsConsole(a) then 0 else multiset(xs)[a])
  {
    forall a
      ensures multiset(NonConsole(xs))[a] == (if IsConsole(a) then 0 else multiset(xs)[a])
    {
      NonConsoleOccurrences(xs, a);
    }
  }

  /** The occurrences of one appender in NonConsole, by induction on the list. */
  lemma {:induction false} NonConsoleOccurrences(xs: seq<Appender>, a: Appender)
    ensures multiset(NonConsole(xs))[a] == (if IsConsole(a) then 0 else multiset(xs)[a])
  {
    if |xs| != 0 {
      NonConsoleOccurrences(xs[1..], a);
      assert xs == [xs[0]] + xs[1..];
      var head := if IsConsole(xs[0]) then [] else [xs[0]];
      assert NonConsole(xs) == head + NonConsole(xs[1..]);
      assert multiset(NonConsole(xs))[a] == multiset(head)[a] + multiset(NonConsole(xs[1..]))[a];
      assert multiset(xs)[a] == multiset([xs[0]])[a] + multiset(xs[1..])[a];
    }
  }

  /** Index of the first console appender, or |xs| when there is none. */
  function FirstConsole(xs: seq<Appender>): (i: nat)
    ensures i <= |xs|
    ensures forall j | 0 <= j < i :: !IsConsole(xs[j])
    ensures i < |xs| ==> IsConsole(xs[i])
  {
    if |xs| == 0 then 0
    else if IsConsole(xs[0]) then 0
    else 1 + FirstConsole(xs[1..])
  }

  /** removeConsoleAppenders: drop the first console appender, if any, and
      keep every other appender in its order. */
  function RemoveFirstConsole(xs: seq<Appender>): (r: seq<Appender>)
    ensures FirstConsole(xs) == |xs| ==> r == xs
    ensures FirstConsole(xs) < |xs| ==> r == xs[..FirstConsole(xs)] + xs[FirstConsole(xs) + 1..]
  {
    if |xs| == 0 then []
    else if IsConsole(xs[0]) then xs[1..]
    else
      var rest := RemoveFirstConsole(xs[1..]);
      assert FirstConsole(xs) == 1 + FirstConsole(xs[1..]);
      assert FirstConsole(xs[1..]) < |xs[1..]| ==>
        [xs[0]] + xs[1..][..FirstConsole(xs[1..])] == xs[..FirstConsole(xs)];
      assert xs == [xs[0]] + xs[1..];
      [xs[0]] + rest
  }

  /** Element by element: the appenders before the first console one keep
      their place, the ones after it move up by one. */
  lemma RemoveFirstConsoleAt(xs: seq<Appender>)
    requires FirstConsole(xs) < |xs|
    ensures |RemoveFirstConsole(xs)| == |xs| - 1
    ensures forall j | 0 <= j < |xs| - 1 ::
      RemoveFirstConsole(xs)[j] == xs[if j < FirstConsole(xs) then j else j + 1]
  {
    var i := FirstConsole(xs);
    var r := RemoveFirstConsole(xs);
    assert r == xs[..i] + xs[i + 1..];
    forall j | 0 <= j < |xs| - 1
      ensures r[j] == xs[if j < i then j else j + 1]
    {
      if j < i {
        assert r[j] == xs[..i][j];
      } else {
        assert r[j] == xs[i + 1..][j - i];
      }
    }
  }

  /** One appender after verbose mode's backfill: an appender without a
      threshold gets `saved`; an explicit threshold is kept. */
  function Fill(a: Appender, saved: LogLevel): Appender {
    if a.threshold == NotSet then a.(threshold := saved) else a
  }

  /** The backfill loop of setVerboseMode over a whole list. */
  function Backfill(xs: seq<Appender>, saved: LogLevel): (r: seq<Appender>)
    ensures |r| == |xs|
    ensures forall i | 0 <= i < |xs| ::
      r[i].kind == xs[i].kind && r[i].name == xs[i].name && r[i].layout == xs[i].layout
    ensures forall i | 0 <= i < |xs| ::
      r[i].threshold == (if xs[i].threshold == NotSet then saved else xs[i].threshold)
  {
    if |xs| == 0 then [] else [Fill(xs[0], saved)] + Backfill(xs[1..], saved)
  }

  lemma {:induction false} ConsoleCountAppend(xs: seq<Appender>, ys: seq<Appender>)
    ensures ConsoleCount(xs + ys) == ConsoleCount(xs) + ConsoleCount(ys)
  {
    if |xs| == 0 {
      assert xs + ys == ys;
    } else {
      assert (xs + ys)[1..] == xs[1..] + ys;
      ConsoleCountAppend(xs[1..], ys);
    }
  }

  lemma {:induction false} NonConsoleAppend(xs: seq<Appender>, ys: seq<Appender>)
    ensures NonConsole(xs + ys) == NonConsole(xs) + NonConsole(ys)
  {
    if |xs| == 0 {
      assert xs + ys == ys;
    } else {
      assert (xs + ys)[1..] == xs[1..] + ys;
      NonConsoleAppend(xs[1..], ys);
    }
  }

  /** Removing the first console appender removes exactly one console
      appender when there is one, and none otherwise. */
  lemma {:induction false} RemoveFirstConsoleCount(xs: seq<Appender>)
    ensures ConsoleCount(RemoveFirstConsole(xs)) ==
      (if ConsoleCount(xs) == 0 then 0 else ConsoleCount(xs) - 1)
    ensures (FirstConsole(xs) < |xs|) <==> ConsoleCount(xs) > 0
  {
    if |xs| != 0 && !IsConsole(xs[0]) {
      RemoveFirstConsoleCount(xs[1..]);
    }
  }

  /** The non-console appenders are untouched, in content and order. */
  lemma {:induction false} RemoveFirstConsoleKeepsOthers(xs: seq<Appender>)
    ensures NonConsole(RemoveFirstConsole(xs)) == NonConsole(xs)
  {
    if |xs| != 0 && !IsConsole(xs[0]) {
      RemoveFirstConsoleKeepsOthers(xs[1..]);
    }
  }

  lemma {:induction false} BackfillConsoleCount(xs: seq<Appender>, saved: LogLevel)
    ensures ConsoleCount(Backfill(xs, saved)) == ConsoleCount(xs)
  {
    if |xs| != 0 {
      BackfillConsoleCount(xs[1..], saved);
    }
  }

  /** Backfill commutes with taking the non-console appenders. */
  lemma {:induction false} BackfillNonConsole(xs: seq<Appender>, saved: LogLevel)
    ensures NonConsole(Backfill(xs, saved)) == Backfill(NonConsole(xs), saved)
  {
    if |xs| != 0 {
      BackfillNonConsole(xs[1..], saved);
      assert Backfill(xs, saved)[1..] == Backfill(xs[1..], saved);
      if !IsConsole(xs[0]) {
        assert [xs[0]] + NonConsole(xs[1..]) == NonConsole(xs);
        assert Backfill([xs[0]] + NonConsole(xs[1..]), saved)[1..] == Backfill(NonConsole(xs[1..]), saved);
      }
    }
  }

  /** Back-filling with NOT_SET changes nothing: a logger without a level
      has no level to hand down. */
  lemma BackfillNotSet(xs: seq<Appender>)
    ensures Backfill(xs, NotSet) == xs
  {
    var r := Backfill(xs, NotSet);
    forall i | 0 <= i < |xs|
      ensures r[i] == xs[i]
    {
      assert r[i].threshold == xs[i].threshold;
    }
  }

  /** A list whose thresholds are all explicit is left alone by backfill,
      whatever the saved level: a second backfill never overrides the first. */
  lemma {:induction false} BackfillOfExplicit(xs: seq<Appender>, saved: LogLevel)
    requires forall i | 0 <= i < |xs| :: xs[i].threshold != NotSet
    ensures Backfill(xs, saved) == xs
  {
    if |xs| != 0 {
      BackfillOfExplicit(xs[1..], saved);
    }
  }

  /** A second backfill after one with a real level changes nothing: the
      first one left no threshold unset. */
  lemma BackfillTwice(xs: seq<Appender>, first: LogLevel, second: LogLevel)
    requires first != NotSet
    ensures Backfill(Backfill(xs, first), second) == Backfill(xs, first)
  {
    var once := Backfill(xs, first);
    assert forall i | 0 <= i < |once| :: once[i].threshold != NotSet;
    BackfillOfExplicit(once, second);
  }
}

=== FILE: context.dfy ===
/** The mapped diagnostic context (log4cplus MDC) that Ftylog::setContext
    and Ftylog::clearContext manage: process-wide key/value tags. */
module Context {

  /** clearContext: whatever the context held, no tags remain. */
  function ClearContext(current: map<string, string>): (mdc: map<string, string>)
    ensures mdc.Keys == {}
  {
    map[]
  }

  /** setContext: clear the context, then put every entry of `param`. The
      result is `param` itself, whatever the context held before: the whole
      map is replaced, so the last caller wins. */
  method SetContext(current: map<string, string>, param: map<string, string>) returns (mdc: map<string, string>)
    ensures mdc == param
    ensures |param| == 0 ==> mdc == ClearContext(current)
  {
    mdc := ClearContext(current);
    var todo := param.Keys;
    while todo != {}
      invariant todo <= param.Keys
      invariant mdc.Keys == param.Keys - todo
      invariant forall k | k in mdc :: mdc[k] == param[k]
      decreases |todo|
    {
      var k :| k in todo;
      mdc := mdc[k := param[k]];
      todo := todo - {k};
    }
  }
}

=== FILE: levels.dfy ===
/** log4cplus severity levels as Ftylog uses them, and the parsers that turn
    the BIOS_LOG_LEVEL / BIOS_LOG_INIT_LEVEL environment strings into levels
    (src/fty_logger.cpp, setLogLevelFromEnvDefinite and its two callers). */
module Levels {
  import opened Wrappers

  /** The log4cplus levels, in severity order. NotSet is the "no threshold"
      value an appender starts with. */
  datatype LogLevel = NotSet | Trace | Debug | Info | Warn | Error | Fatal | Off {

    /** The log4cplus integer for the level. */
    function Value(): int {
      match this
      case NotSet => -1
      case Trace => 0
      case Debug => 10000
      case Info => 20000
      case Warn => 30000
      case Error => 40000
      case Fatal => 50000
      case Off => 60000
    }

    /** Position in the declaration order above. */
    function Ordinal(): nat {
      match this
      case NotSet => 0
      case Trace => 1
      case Debug => 2
      case Info => 3
      case Warn => 4
      case Error => 5
      case Fatal => 6
      case Off => 7
    }
  }

  /** The six levels a message can be logged at. */
  type Severity = l: LogLevel | l != NotSet && l != Off witness Trace

  /** The environment string naming each level a logger can be set to. */
  function EnvName(l: LogLevel): string
    requires l != NotSet
  {
    match l
    case Trace => "LOG_TRACE"
    case Debug => "LOG_DEBUG"
    case Info => "LOG_INFO"
    case Warn => "LOG_WARNING"
    case Error => "LOG_ERR"
    case Fatal => "LOG_CRIT"
    case Off => "LOG_OFF"
  }

  /** The integer order of log4cplus levels is the declaration order: the
      gaps between the numbers carry no meaning. */
  lemma ValueOrderIsOrdinalOrder(a: LogLevel, b: LogLevel)
    ensures a.Value() <= b.Value() <==> a.Ordinal() <= b.Ordinal()
    ensures a.Value() == b.Value() <==> a == b
  {
  }

  /** OFF is above every level a message can carry. */
  lemma OffAboveEverySeverity(l: Severity)
    ensures l.Value() < Off.Value()
    ensures NotSet.Value() < l.Value()
  {
  }

  /** setLogLevelFromEnvDefinite: the level named by an environment string,
      or None for the empty string and every unknown string (in which case
      the source sets nothing and returns false). */
  function ParseDefinite(v: string): (r: Option<LogLevel>)
    ensures r.Some? ==> r.value != NotSet && EnvName(r.value) == v
    ensures r.None? ==> forall l: LogLevel | l != NotSet :: EnvName(l) != v
  {
    if v == "" then None
    else if v == "LOG_TRACE" then Some(Trace)
    else if v == "LOG_DEBUG" then Some(Debug)
    else if v == "LOG_INFO" then Some(Info)
    else if v == "LOG_WARNING" then Some(Warn)
    else if v == "LOG_ERR" then Some(Error)
    else if v == "LOG_CRIT" then Some(Fatal)
    else if v == "LOG_OFF" then Some(Off)
    else None
  }

  /** Every level a logger can be set to is recognised by its name. */
  lemma ParseEnvName(l: LogLevel)
    requires l != NotSet
    ensures ParseDefinite(EnvName(l)) == Some(l)
  {
  }

  /** setLogLevelFromEnv(string): an empty or unknown main level string
      falls back to TRACE, "log everything". */
  function LevelFromEnv(v: string): (r: LogLevel)
    ensures r != NotSet
    ensures forall l: LogLevel | l != NotSet :: EnvName(l) == v ==> r == l
    ensures (forall l: LogLevel | l != NotSet :: EnvName(l) != v) ==> r == Trace
  {
    ParseDefinite(v).GetOr(Trace)
  }

  /** setLogInitLevelFromEnv: an empty or unknown init level string falls
      back to OFF, so that start-up is silent. */
  function InitLevelFromEnv(v: string): (r: LogLevel)
    ensures r != NotSet
    ensures forall l: LogLevel | l != NotSet :: EnvName(l) == v ==> r == l
    ensures (forall l: LogLevel | l != NotSet :: EnvName(l) != v) ==> r == Off
  {
    ParseDefinite(v).GetOr(Off)
  }

  /** The two fallbacks differ exactly on the strings the parser rejects. */
  lemma FallbacksDiffer(v: string)
    ensures LevelFromEnv(v) == InitLevelFromEnv(v) <==> ParseDefinite(v).Some?
    ensures LevelFromEnv("") == Trace && InitLevelFromEnv("") == Off
  {
  }
}

=== FILE: logger.dfy ===
/** One Ftylog instance (src/fty_logger.cpp, Ftylog section) as an immutable
    state with pure transitions. The environment, the readability of files
    and what log4cplus's PropertyConfigurator reads from a file are explicit
    parameters; records forwarded to log4cplus are collected in `sink`. */
module Logger {
  import opened Wrappers
  import opened Levels
  import opened Appenders
  import Watch

  /** The default layout pattern, LOGPATTERN. */
  const DefaultPattern: string := "%c [%t] -%-5p- %M (%l) %m%n"

  /** Source location of a log call (__FILE__, __LINE__, __func__). */
  datatype Site = Site(file: string, line: int, func: string)

  /** The messages Ftylog logs about itself through its own logger. */
  datatype Report =
    | LoadingFile(path: string)
    | UnreadableFile(path: string)
    | NoFileDefined
    | ConsoleFallback
    | BufferIsNull
  {
    /** The text of each report, as the source spells it. */
    function Text(): string {
      match this
      case LoadingFile(path) => "Load Config file " + path + " "
      case UnreadableFile(path) =>
        "File " + path + " can't be accessed with read rights; this process will not monitor whether it becomes available later"
      case NoFileDefined => "No log configuration file defined"
      case ConsoleFallback => "No log configuration file was loaded, will log to stderr by default"
      case BufferIsNull => "Buffer == NULL"
    }
  }

  /** A message: text rendered from a caller's format and arguments, or one
      of Ftylog's own reports. */
  datatype Message = Formatted(text: string) | Self(report: Report)

  /** A record handed to log4cplus by macro_forced_log. */
  datatype Record = Record(level: int, message: Message, site: Site)

  /** What vasprintf produced for a message: -1 (allocation failure), a
      success that left the buffer null, or the rendered message. */
  datatype Rendering = AllocFailed | NullBuffer | Rendered(message: Message)

  /** The three environment variables Ftylog reads; None when unset. */
  datatype Env = Env(level: Option<string>, initLevel: Option<string>, pattern: Option<string>)

  /** What a configuration file sets up for one logger. */
  datatype LoggerSetup = LoggerSetup(level: LogLevel, appenders: seq<Appender>)

  /** What PropertyConfigurator::doConfigure reads from a file: a setup for
      each logger the file names, and the root logger's appenders if the
      file configures the root. */
  datatype Config = Config(loggers: map<string, LoggerSetup>, root: Option<seq<Appender>>)

  /** The files that fopen(path, "r") can open, with what each configures. */
  type FileSystem = map<string, Config>

  /** An Ftylog: agent name, config file path, layout pattern, the log4cplus
      logger's own level and appenders, the root logger's appenders, the
      watch thread slot with its history, and the records forwarded so far. */
  datatype State = State(
    agentName: string,
    configFile: string,
    pattern: string,
    level: LogLevel,
    appenders: seq<Appender>,
    root: seq<Appender>,
    watcher: Option<string>,
    watchLog: seq<Watch.WatchEvent>,
    sink: seq<Record>)

  /** The configuration of an instance, leaving out the history of
      forwarded records and of started and stopped watch threads. */
  datatype Settings = Settings(
    agentName: string,
    configFile: string,
    pattern: string,
    level: LogLevel,
    appenders: seq<Appender>,
    root: seq<Appender>,
    watcher: Option<string>)

  function SettingsOf(s: State): Settings {
    Settings(s.agentName, s.configFile, s.pattern, s.level, s.appenders, s.root, s.watcher)
  }

  /** The watch slot agrees with the history of watch threads. */
  predicate Valid(s: State) {
    Watch.Owns(s.watcher, s.watchLog)
  }

  /** A freshly allocated Ftylog before init: no watch thread. */
  const Blank: State := State("", "", "", NotSet, [], [], None, [], [])

  /** fopen(path, "r") succeeds; an empty path is never opened. */
  predicate Readable(path: string, fs: FileSystem) {
    path != "" && path in fs
  }

  // ---------------------------------------------------------------------
  // Levels

  /** setLogLevelTrace ... setLogLevelOff. */
  function SetLogLevel(s: State, l: LogLevel): (r: State)
    requires l != NotSet
    ensures r.level == l
    ensures r.(level := s.level) == s
  {
    s.(level := l)
  }

  /** isLogLevel: a message at `level` passes the logger's own level. For
      a level number log4cplus names, that is the order of the levels. */
  function IsLogLevel(s: State, level: int): (r: bool)
    ensures forall l: LogLevel :: l.Value() == level ==> (r <==> s.level.Ordinal() <= l.Ordinal())
  {
    s.level.Value() <= level
  }

  /** isLogTrace ... isLogFatal: the logger's level is at or below `l`. */
  function IsLog(s: State, l: Severity): (r: bool)
    ensures r <==> s.level.Ordinal() <= l.Ordinal()
  {
    IsLogLevel(s, l.Value())
  }

  /** isLogOff: the logger is at OFF, and then no query above is true. */
  function IsLogOff(s: State): (r: bool)
    ensures r <==> s.level == Off
    ensures r ==> forall l: Severity :: !IsLog(s, l)
  {
    s.level.Value() == Off.Value()
  }

  /** After setting level `x`, exactly the queries for levels at or above `x`
      are true; after setting OFF none is, and only then is isLogOff true. */
  lemma GatingAfterSet(s: State, x: LogLevel, y: Severity)
    requires x != NotSet
    ensures IsLog(SetLogLevel(s, x), y) <==> x.Ordinal() <= y.Ordinal()
    ensures IsLogOff(SetLogLevel(s, x)) <==> x == Off
    ensures x == Off ==> !IsLog(SetLogLevel(s, x), y)
  {
  }

  /** Gating is monotone: a message that passes, passes at every higher level. */
  lemma GatingMonotone(s: State, a: int, b: int)
    requires a <= b && IsLogLevel(s, a)
    ensures IsLogLevel(s, b)
  {
  }

  /** setLogLevelFromEnvDefinite: sets the level named by `v` and answers
      true, or changes nothing and answers false. */
  function SetLevelFromEnvDefinite(s: State, v: string): (r: (bool, State))
    ensures r.0 <==> exists l: LogLevel | l != NotSet :: EnvName(l) == v
    ensures r.0 ==> r.1.level != NotSet && EnvName(r.1.level) == v && r.1.(level := s.level) == s
    ensures !r.0 ==> r.1 == s
  {
    match ParseDefinite(v)
    case Some(l) =>
      assert EnvName(l) == v;
      (true, SetLogLevel(s, l))
    case None => (false, s)
  }

  // ---------------------------------------------------------------------
  // Inserting a log

  /** The call site of insertLog's own "Buffer == NULL" report. */
  const NullBufferSite: Site := Site("src/fty_logger.cpp", 393, "insertLog")

  const NullBufferRecord: Record := Record(Error.Value(), Self(BufferIsNull), NullBufferSite)

  /** insertLog: gate on the level, render, forward one record. A failed
      rendering drops the message; a null buffer is reported through this
      same logger at ERROR level instead of the message, and that report
      passes the gate again. */
  function InsertLog(s: State, level: int, site: Site, render: Rendering): (r: State)
    ensures r.(sink := s.sink) == s
    ensures !IsLogLevel(s, level) ==> r == s
    ensures render.AllocFailed? ==> r == s
    ensures render.Rendered? ==>
      r.sink == s.sink + (if IsLogLevel(s, level) then [Record(level, render.message, site)] else [])
    ensures render.NullBuffer? ==>
      r.sink == s.sink + (if IsLogLevel(s, level) && IsLogLevel(s, Error.Value()) then [NullBufferRecord] else [])
    ensures forall k | |s.sink| <= k < |r.sink| :: IsLogLevel(s, r.sink[k].level)
  {
    if !IsLogLevel(s, level) then s
    else match render
      case AllocFailed => s
      case NullBuffer =>
        if IsLogLevel(s, Error.Value()) then s.(sink := s.sink + [NullBufferRecord]) else s
      case Rendered(message) => s.(sink := s.sink + [Record(level, message, site)])
  }

  /** With the level at TRACE a DEBUG message is forwarded; after
      setLogLevelWarning an INFO message is not, and an ERROR message is. */
  lemma GatingScenario(s: State, site: Site, m: Message)
    requires s.level == Trace
    ensures var a := InsertLog(s, Debug.Value(), site, Rendered(m));
            var b := InsertLog(SetLogLevel(a, Warn), Info.Value(), site, Rendered(m));
            var c := InsertLog(b, Error.Value(), site, Rendered(m));
            && a.sink == s.sink + [Record(10000, m, site)]
            && b.sink == a.sink
            && c.sink == a.sink + [Record(40000, m, site)]
  {
  }

  /** The messages loadAppenders logs about itself through this logger. */
  function SelfLog(s: State, level: LogLevel, line: int, report: Report): (r: State)
    requires level != NotSet
    ensures r.(sink := s.sink) == s
    ensures r.sink == s.sink + (if IsLogLevel(s, level.Value()) then [Record(level.Value(), Self(report), LoadSite(line))] else [])
  {
    InsertLog(s, level.Value(), LoadSite(line), Rendered(Self(report)))
  }

  /** The call sites of loadAppenders' reports. */
  function LoadSite(line: int): Site {
    Site("src/fty_logger.cpp", line, "loadAppenders")
  }

  // ---------------------------------------------------------------------
  // Appenders

  /** The default console appender: stderr, the instance's pattern, named
      "Console" + agent name, no threshold. */
  function DefaultConsole(s: State): Appender {
    Appender(Console(true), "Console" + s.agentName, s.pattern, NotSet)
  }

  /** The console appender verbose mode adds: ConsoleAppender(false, ...)
      writes to stdout; named "Verbose-" + agent name, no threshold. */
  function VerboseConsole(s: State): Appender {
    Appender(Console(false), "Verbose-" + s.agentName, s.pattern, NotSet)
  }

  /** setConsoleAppender: remove every appender, add the default console. */
  function SetConsoleAppender(s: State): (r: State)
    ensures r.appenders == [DefaultConsole(s)]
    ensures ConsoleCount(r.appenders) == 1
    ensures r.(appenders := s.appenders) == s
  {
    s.(appenders := [DefaultConsole(s)])
  }

  /** setVerboseMode: save the level and set TRACE; remove the first console
      appender of this logger and of the root logger; give every remaining
      appender without a threshold the saved level; add a verbose console
      appender. There is no way back short of a reinitialisation. */
  function SetVerboseMode(s: State): (r: State)
    ensures r.level == Trace
    ensures |r.appenders| == |s.appenders| + (if FirstConsole(s.appenders) < |s.appenders| then 0 else 1)
    ensures r.appenders[|r.appenders| - 1] == VerboseConsole(s)
    ensures forall j | 0 <= j < |r.appenders| - 1 ::
      r.appenders[j] == Fill(s.appenders[if j < FirstConsole(s.appenders) then j else j + 1], s.level)
    ensures r.root == RemoveFirstConsole(s.root)
    ensures r.(level := s.level, appenders := s.appenders, root := s.root) == s
  {
    var saved := s.level;
    var t := SetLogLevel(s, Trace);
    var kept := RemoveFirstConsole(t.appenders);
    var filled := Backfill(kept, saved);
    var i := FirstConsole(s.appenders);
    assert |kept| == |s.appenders| - (if i < |s.appenders| then 1 else 0) &&
      forall j | 0 <= j < |kept| :: kept[j] == s.appenders[if j < i then j else j + 1] by {
      if i < |s.appenders| {
        RemoveFirstConsoleAt(s.appenders);
      }
    }
    assert forall j | 0 <= j < |filled| :: filled[j] == Fill(kept[j], saved);
    var appenders := filled + [VerboseConsole(s)];
    assert forall j | 0 <= j < |filled| :: appenders[j] == filled[j];
    t.(appenders := appenders, root := RemoveFirstConsole(t.root))
  }

  /** Verbose mode leaves one console appender per console appender it
      found, and adds one when there was none. */
  lemma VerboseConsoleCount(s: State)
    ensures ConsoleCount(SetVerboseMode(s).appenders) ==
      (if ConsoleCount(s.appenders) == 0 then 1 else ConsoleCount(s.appenders))
  {
    var kept := RemoveFirstConsole(s.appenders);
    RemoveFirstConsoleCount(s.appenders);
    BackfillConsoleCount(kept, s.level);
    ConsoleCountAppend(Backfill(kept, s.level), [VerboseConsole(s)]);
    assert ConsoleCount([VerboseConsole(s)]) == 1 by {
      assert [VerboseConsole(s)][1..] == [];
    }
  }

  /** The non-console appenders after verbose mode: the same appenders in
      the same order, those without a threshold now at the saved level. */
  lemma VerboseNonConsole(s: State)
    ensures NonConsole(SetVerboseMode(s).appenders) == Backfill(NonConsole(s.appenders), s.level)
  {
    var kept := RemoveFirstConsole(s.appenders);
    NonConsoleAppend(Backfill(kept, s.level), [VerboseConsole(s)]);
    assert NonConsole([VerboseConsole(s)]) == [] by {
      assert [VerboseConsole(s)][1..] == [];
    }
    BackfillNonConsole(kept, s.level);
    RemoveFirstConsoleKeepsOthers(s.appenders);
  }

  /** A second verbose call, when the logger had a level: the thresholds
      the first call saved on the non-console appenders are kept. */
  lemma VerboseTwiceKeepsThresholds(s: State)
    requires s.level != NotSet
    ensures NonConsole(SetVerboseMode(SetVerboseMode(s)).appenders) == NonConsole(SetVerboseMode(s).appenders)
  {
    var once := SetVerboseMode(s);
    VerboseNonConsole(s);
    VerboseNonConsole(once);
    BackfillTwice(NonConsole(s.appenders), s.level, once.level);
  }

  /** A second verbose call, when the logger had no level (NOT_SET, e.g. a
      file that leaves the logger to inherit): the first call leaves NOT_SET
      thresholds in place, and the second gives them TRACE, the level the
      first call set. */
  lemma VerboseTwiceFromNotSet(s: State)
    requires s.level == NotSet
    ensures NonConsole(SetVerboseMode(s).appenders) == NonConsole(s.appenders)
    ensures NonConsole(SetVerboseMode(SetVerboseMode(s)).appenders) == Backfill(NonConsole(s.appenders), Trace)
  {
    var once := SetVerboseMode(s);
    VerboseNonConsole(s);
    BackfillNotSet(NonConsole(s.appenders));
    VerboseNonConsole(once);
    assert once.level == Trace;
  }

  /** A second verbose call adds no console appender when there was at most
      one to begin with. */
  lemma VerboseTwiceConsoles(s: State)
    requires ConsoleCount(s.appenders) <= 1
    ensures ConsoleCount(SetVerboseMode(SetVerboseMode(s)).appenders) == 1
  {
    VerboseConsoleCount(s);
    VerboseConsoleCount(SetVerboseMode(s));
  }

  // ---------------------------------------------------------------------
  // Loading appenders

  /** The level the logger has once doConfigure has read `cfg`: the file's
      level for this logger if the file names it, else `level`. */
  function ConfiguredLevel(name: string, level: LogLevel, cfg: Config): LogLevel {
    if name in cfg.loggers then cfg.loggers[name].level else level
  }

  /** The appenders the logger has once doConfigure has read `cfg` into an
      emptied logger. */
  function ConfiguredAppenders(name: string, cfg: Config): seq<Appender> {
    if name in cfg.loggers then cfg.loggers[name].appenders else []
  }

  /** Put back the level saved before BIOS_LOG_INIT_LEVEL took effect;
      NotSet means nothing was saved. */
  function Restore(s: State, saved: LogLevel): (r: State)
    ensures r.level == (if saved == NotSet then s.level else saved)
    ensures r.(level := s.level) == s
  {
    if saved != NotSet then s.(level := saved) else s
  }

  /** The level loadAppenders has arrived at when it restores the saved
      level: the caller's level, except that a logger without a level keeps
      the init level, since NotSet reads as "nothing saved". */
  function RestoredLevel(s: State, env: Env): LogLevel {
    if env.initLevel.Some? && s.level == NotSet then InitLevelFromEnv(env.initLevel.value) else s.level
  }

  /** The file branch of loadAppenders: remove all appenders, restore the
      saved level, apply the file, start a watch thread on it. Restoring
      before doConfigure lets the file override the level. */
  function LoadFile(s: State, saved: LogLevel, cfg: Config): (r: State)
    requires s.watcher.None?
    ensures Valid(s) ==> Valid(r)
    ensures r.watcher == Some(s.configFile)
    ensures r.watchLog == s.watchLog + [Watch.Started(s.configFile)]
    ensures r.appenders == ConfiguredAppenders(s.agentName, cfg)
    ensures r.level == ConfiguredLevel(s.agentName, if saved == NotSet then s.level else saved, cfg)
    ensures r.root == cfg.root.GetOr(s.root)
    ensures r.sink == s.sink && r.agentName == s.agentName && r.configFile == s.configFile && r.pattern == s.pattern
  {
    var restored := Restore(s.(appenders := []), saved);
    var configured := restored.(
      appenders := ConfiguredAppenders(s.agentName, cfg),
      level := ConfiguredLevel(s.agentName, restored.level, cfg),
      root := cfg.root.GetOr(restored.root));
    var w := Watch.Start(configured.watcher, configured.watchLog, configured.configFile);
    configured.(watcher := w.0, watchLog := w.1)
  }

  /** The console branch of loadAppenders: default console appender, then
      the saved level is restored. */
  function LoadConsole(s: State, saved: LogLevel, noisy: bool): (r: State)
    ensures Valid(s) ==> Valid(r)
    ensures r.appenders == [DefaultConsole(s)]
    ensures r.level == (if saved == NotSet then s.level else saved)
    ensures !noisy ==> r.sink == s.sink
    ensures s.level == Off ==> r.sink == s.sink
    ensures r.(appenders := s.appenders, level := s.level, sink := s.sink) == s
  {
    var t := SetConsoleAppender(s);
    var u := if noisy then SelfLog(t, Info, 293, ConsoleFallback) else t;
    Restore(u, saved)
  }


  /** loadAppenders, first part: with BIOS_LOG_INIT_LEVEL set, the init level
      replaces the logger's level for the rest of the call; then the watch
      thread, if any, is stopped. */
  function EnterLoad(s: State, env: Env): (r: State)
    ensures Valid(s) ==> Valid(r)
    ensures r.watcher.None?
    ensures r.watchLog == s.watchLog + (if s.watcher.Some? then [Watch.Stopped(s.watcher.value)] else [])
    ensures r.level == (if env.initLevel.Some? then InitLevelFromEnv(env.initLevel.value) else s.level)
    ensures r.agentName == s.agentName && r.configFile == s.configFile && r.pattern == s.pattern
    ensures r.appenders == s.appenders && r.root == s.root && r.sink == s.sink
  {
    var s1 := if env.initLevel.Some? then s.(level := InitLevelFromEnv(env.initLevel.value)) else s;
    var w := Watch.Stop(s1.watcher, s1.watchLog);
    s1.(watcher := w.0, watchLog := w.1)
  }

  /** loadAppenders on a readable file: report it when noisy, then load it. */
  function LoadReadable(s: State, saved: LogLevel, noisy: bool, cfg: Config): (r: State)
    requires s.watcher.None?
    ensures Valid(s) ==> Valid(r)
    ensures r.watcher == Some(s.configFile)
    ensures r.watchLog == s.watchLog + [Watch.Started(s.configFile)]
    ensures r.appenders == ConfiguredAppenders(s.agentName, cfg)
    ensures r.level == ConfiguredLevel(s.agentName, if saved == NotSet then s.level else saved, cfg)
    ensures r.root == cfg.root.GetOr(s.root)
    ensures r.agentName == s.agentName && r.configFile == s.configFile && r.pattern == s.pattern
    ensures !noisy || s.level == Off ==> r.sink == s.sink
    ensures noisy ==>
      r.sink == s.sink + (if IsLogLevel(s, Info.Value())
                          then [Record(Info.Value(), Self(LoadingFile(s.configFile)), LoadSite(273))] else [])
  {
    var t := if noisy then SelfLog(s, Info, 273, LoadingFile(s.configFile)) else s;
    LoadFile(t, saved, cfg)
  }

  /** loadAppenders without a readable file: report an unreadable path and
      forget it, or report the missing path when noisy; then fall back to
      the console. */
  function LoadUnreadable(s: State, saved: LogLevel, noisy: bool): (r: State)
    ensures Valid(s) ==> Valid(r)
    ensures r.watcher == s.watcher && r.watchLog == s.watchLog
    ensures r.configFile == ""
    ensures r.appenders == [DefaultConsole(s)]
    ensures r.level == (if saved == NotSet then s.level else saved)
    ensures r.root == s.root && r.agentName == s.agentName && r.pattern == s.pattern
    ensures !noisy ==>
      r.sink == s.sink + (if s.configFile != "" && IsLogLevel(s, Error.Value())
                          then [Record(Error.Value(), Self(UnreadableFile(s.configFile)), LoadSite(258))] else [])
    ensures s.level == Off ==> r.sink == s.sink
    // when noisy, the path report (error or warning), then the console
    // fallback report, each gated by the level in force during the reload
    ensures noisy ==>
      r.sink == s.sink
        + (if s.configFile != "" then
             (if IsLogLevel(s, Error.Value())
              then [Record(Error.Value(), Self(UnreadableFile(s.configFile)), LoadSite(258))] else [])
           else
             (if IsLogLevel(s, Warn.Value())
              then [Record(Warn.Value(), Self(NoFileDefined), LoadSite(267))] else []))
        + (if IsLogLevel(s, Info.Value()) then [Record(Info.Value(), Self(ConsoleFallback), LoadSite(293))] else [])
  {
    var t :=
      if s.configFile != "" then SelfLog(s, Error, 258, UnreadableFile(s.configFile)).(configFile := "")
      else if noisy then SelfLog(s, Warn, 267, NoFileDefined)
      else s;
    LoadConsole(t, saved, noisy)
  }

  /** loadAppenders: honour BIOS_LOG_INIT_LEVEL while loading, stop any watch
      thread, then either load a readable config file and watch it, or clear
      an unreadable path and fall back to one console appender; the level
      saved before the init level took effect is put back. */
  function LoadAppenders(s: State, env: Env, fs: FileSystem): (r: State)
    ensures Valid(s) ==> Valid(r)
    // any previous watch thread is released; one is started exactly for a readable file
    ensures r.watcher == (if Readable(s.configFile, fs) then Some(s.configFile) else None)
    ensures r.watchLog == s.watchLog
      + (if s.watcher.Some? then [Watch.Stopped(s.watcher.value)] else [])
      + (if Readable(s.configFile, fs) then [Watch.Started(s.configFile)] else [])
    ensures r.configFile == (if Readable(s.configFile, fs) then s.configFile else "")
    ensures !Readable(s.configFile, fs) ==>
      r.appenders == [DefaultConsole(s)] && r.root == s.root && r.level == RestoredLevel(s, env)
    ensures Readable(s.configFile, fs) ==>
      && r.appenders == ConfiguredAppenders(s.agentName, fs[s.configFile])
      && r.root == fs[s.configFile].root.GetOr(s.root)
      && r.level == ConfiguredLevel(s.agentName, RestoredLevel(s, env), fs[s.configFile])
    ensures r.agentName == s.agentName && r.pattern == s.pattern
  {
    var noisy := env.initLevel.Some?;
    var saved := if noisy then s.level else NotSet;
    var s2 := EnterLoad(s, env);
    assert s2.configFile == s.configFile && s2.agentName == s.agentName;
    assert (if saved == NotSet then s2.level else saved) == RestoredLevel(s, env);
    if Readable(s.configFile, fs) then
      LoadReadable(s2, saved, noisy, fs[s.configFile])
    else
      LoadUnreadable(s2, saved, noisy)
  }

  /** BIOS_LOG_INIT_LEVEL only gates loadAppenders' own messages: once the
      logger has a level, the settings a reload reaches are the same with
      or without it. On the console branch the saved level comes back after
      the appender is added; on the file branch before doConfigure, so the
      file still decides. */
  lemma InitLevelIsTransient(s: State, env: Env, fs: FileSystem)
    requires s.level != NotSet
    ensures SettingsOf(LoadAppenders(s, env, fs)) == SettingsOf(LoadAppenders(s, env.(initLevel := None), fs))
    ensures !Readable(s.configFile, fs) ==> LoadAppenders(s, env, fs).level == s.level
  {
  }

  /** NOT_SET doubles as "nothing saved": a logger without a level that
      reloads under BIOS_LOG_INIT_LEVEL and falls back to the console keeps
      the init level, which is OFF for an empty or unknown string. */
  lemma NotSetKeepsInitLevel(s: State, env: Env, fs: FileSystem)
    requires s.level == NotSet && env.initLevel.Some?
    ensures !Readable(s.configFile, fs) ==>
      LoadAppenders(s, env, fs).level == InitLevelFromEnv(env.initLevel.value)
    ensures !Readable(s.configFile, fs) && ParseDefinite(env.initLevel.value).None? ==>
      LoadAppenders(s, env, fs).level == Off
  {
  }

  /** The messages a reload forwards about itself. Without
      BIOS_LOG_INIT_LEVEL the only one is the error for an unreadable file,
      gated by the caller's level. With it, every report is gated by the
      init level: the file being loaded; or the unreadable path (or the
      missing one) followed by the console fallback. An init level of OFF
      (also the fallback for an unknown string) forwards nothing. */
  lemma LoadAppendersSelfLogs(s: State, env: Env, fs: FileSystem)
    ensures env.initLevel.None? ==>
      LoadAppenders(s, env, fs).sink == s.sink +
        (if s.configFile != "" && !Readable(s.configFile, fs) && IsLogLevel(s, Error.Value())
         then [Record(Error.Value(), Self(UnreadableFile(s.configFile)), LoadSite(258))] else [])
    ensures env.initLevel.Some? && Readable(s.configFile, fs) ==>
      var t := s.(level := InitLevelFromEnv(env.initLevel.value));
      LoadAppenders(s, env, fs).sink == s.sink +
        (if IsLogLevel(t, Info.Value())
         then [Record(Info.Value(), Self(LoadingFile(s.configFile)), LoadSite(273))] else [])
    ensures env.initLevel.Some? && !Readable(s.configFile, fs) ==>
      var t := s.(level := InitLevelFromEnv(env.initLevel.value));
      LoadAppenders(s, env, fs).sink == s.sink
        + (if s.configFile != "" then
             (if IsLogLevel(t, Error.Value())
              then [Record(Error.Value(), Self(UnreadableFile(s.configFile)), LoadSite(258))] else [])
           else
             (if IsLogLevel(t, Warn.Value())
              then [Record(Warn.Value(), Self(NoFileDefined), LoadSite(267))] else []))
        + (if IsLogLevel(t, Info.Value()) then [Record(Info.Value(), Self(ConsoleFallback), LoadSite(293))] else [])
    ensures env.initLevel.Some? && InitLevelFromEnv(env.initLevel.value) == Off ==>
      LoadAppenders(s, env, fs).sink == s.sink
  {
    var noisy := env.initLevel.Some?;
    var saved := if noisy then s.level else NotSet;
    var s2 := EnterLoad(s, env);
    var r := LoadAppenders(s, env, fs);
    assert s2.sink == s.sink && s2.configFile == s.configFile;
    assert !noisy ==> s2.level == s.level;
    assert noisy && InitLevelFromEnv(env.initLevel.value) == Off ==> s2.level == Off;
    if Readable(s.configFile, fs) {
      assert r == LoadReadable(s2, saved, noisy, fs[s.configFile]);
    } else {
      assert r == LoadUnreadable(s2, saved, noisy);
    }
  }

  /** Reloading twice is the same as reloading once, on either branch: one
      default console appender, or the file's appenders and level again. */
  lemma LoadAppendersIdempotent(s: State, env: Env, fs: FileSystem)
    ensures SettingsOf(LoadAppenders(LoadAppenders(s, env, fs), env, fs)) == SettingsOf(LoadAppenders(s, env, fs))
  {
  }

  /** Reloading depends only on the settings it starts from. */
  lemma LoadAppendersSettingsOnly(s: State, t: State, env: Env, fs: FileSystem)
    requires SettingsOf(s) == SettingsOf(t)
    ensures SettingsOf(LoadAppenders(s, env, fs)) == SettingsOf(LoadAppenders(t, env, fs))
  {
    var a := LoadAppenders(s, env, fs);
    var b := LoadAppenders(t, env, fs);
    assert s.configFile == t.configFile && s.agentName == t.agentName && s.level == t.level;
    assert s.root == t.root && s.pattern == t.pattern;
    assert DefaultConsole(s) == DefaultConsole(t);
    assert a.watcher == b.watcher && a.configFile == b.configFile;
    assert a.appenders == b.appenders && a.root == b.root && a.level == b.level;
  }

  // ---------------------------------------------------------------------
  // Construction and reinitialisation

  /** setPatternFromEnv: a set, non-empty BIOS_LOG_PATTERN replaces the pattern. */
  function PatternFromEnv(current: string, v: Option<string>): (r: string)
    ensures v.Some? && v.value != "" ==> r == v.value
    ensures v.None? || v.value == "" ==> r == current
  {
    if v.Some? && v.value != "" then v.value else current
  }

  /** init (and change): stop the watch thread, shut log4cplus down (every
      appender is removed), take the new name and file, restore the default
      pattern, set the level and pattern from the environment, load the
      appenders. */
  function Init(s: State, name: string, configFile: string, env: Env, fs: FileSystem): (r: State)
    ensures Valid(s) ==> Valid(r)
    ensures r.agentName == name
    ensures r.pattern == (if env.pattern.Some? && env.pattern.value != "" then env.pattern.value else DefaultPattern)
    ensures r.configFile == (if Readable(configFile, fs) then configFile else "")
    ensures r.watcher == (if Readable(configFile, fs) then Some(configFile) else None)
    // the old watch thread is stopped before anything else; one is started exactly for a readable file
    ensures r.watchLog == s.watchLog
      + (if s.watcher.Some? then [Watch.Stopped(s.watcher.value)] else [])
      + (if Readable(configFile, fs) then [Watch.Started(configFile)] else [])
    ensures r.level != NotSet || Readable(configFile, fs)
    ensures !Readable(configFile, fs) ==>
      r.appenders == [DefaultConsole(r)] && r.root == [] && r.level == LevelFromEnv(env.level.GetOr(""))
    ensures Readable(configFile, fs) ==>
      && r.appenders == ConfiguredAppenders(name, fs[configFile])
      && r.root == fs[configFile].root.GetOr([])
      && r.level == ConfiguredLevel(name, LevelFromEnv(env.level.GetOr("")), fs[configFile])
  {
    var w := Watch.Stop(s.watcher, s.watchLog);
    var t := s.(watcher := w.0, watchLog := w.1, appenders := [], root := [],
                agentName := name, configFile := configFile, pattern := DefaultPattern);
    var u := SetLogLevel(t, LevelFromEnv(env.level.GetOr("")));
    var v := u.(pattern := PatternFromEnv(u.pattern, env.pattern));
    assert v.level != NotSet && RestoredLevel(v, env) == v.level;
    LoadAppenders(v, env, fs)
  }

  /** The Ftylog(component, configFile) constructor. */
  function New(name: string, configFile: string, env: Env, fs: FileSystem): (r: State)
    ensures Valid(r) && r.agentName == name
    ensures r.pattern == (if env.pattern.Some? && env.pattern.value != "" then env.pattern.value else DefaultPattern)
    ensures r.configFile == (if Readable(configFile, fs) then configFile else "")
    ensures r.watchLog == (if Readable(configFile, fs) then [Watch.Started(configFile)] else [])
    ensures !Readable(configFile, fs) ==>
      r.appenders == [DefaultConsole(r)] && r.root == [] && r.level == LevelFromEnv(env.level.GetOr(""))
    ensures Readable(configFile, fs) ==>
      && r.appenders == ConfiguredAppenders(name, fs[configFile])
      && r.root == fs[configFile].root.GetOr([])
      && r.level == ConfiguredLevel(name, LevelFromEnv(env.level.GetOr("")), fs[configFile])
  {
    Init(Blank, name, configFile, env, fs)
  }

  /** Reinitialising forgets everything configured before: two instances
      reinitialised with the same name, file and environment agree. */
  lemma InitForgetsPast(s: State, t: State, name: string, configFile: string, env: Env, fs: FileSystem)
    ensures SettingsOf(Init(s, name, configFile, env, fs)) == SettingsOf(Init(t, name, configFile, env, fs))
  {
    var ws := Watch.Stop(s.watcher, s.watchLog);
    var wt := Watch.Stop(t.watcher, t.watchLog);
    var vs := s.(watcher := ws.0, watchLog := ws.1, appenders := [], root := [],
                 agentName := name, configFile := configFile, pattern := DefaultPattern);
    var vt := t.(watcher := wt.0, watchLog := wt.1, appenders := [], root := [],
                 agentName := name, configFile := configFile, pattern := DefaultPattern);
    var l := LevelFromEnv(env.level.GetOr(""));
    var ps := SetLogLevel(vs, l);
    var pt := SetLogLevel(vt, l);
    LoadAppendersSettingsOnly(ps.(pattern := PatternFromEnv(ps.pattern, env.pattern)),
                              pt.(pattern := PatternFromEnv(pt.pattern, env.pattern)), env, fs);
  }

  /** change(name, configFile) reinitialises in place: it ends in the
      settings a new instance with that name and file would have. */
  lemma ChangeIsFreshInit(s: State, name: string, configFile: string, env: Env, fs: FileSystem)
    ensures SettingsOf(Init(s, name, configFile, env, fs)) == SettingsOf(New(name, configFile, env, fs))
  {
    InitForgetsPast(s, Blank, name, configFile, env, fs);
  }

  /** setConfigFile: take the new path and reload. */
  function SetConfigFile(s: State, file: string, env: Env, fs: FileSystem): (r: State)
    ensures Valid(s) ==> Valid(r)
    ensures r.configFile == (if Readable(file, fs) then file else "")
    ensures r.watcher == (if Readable(file, fs) then Some(file) else None)
    ensures r.watchLog == s.watchLog
      + (if s.watcher.Some? then [Watch.Stopped(s.watcher.value)] else [])
      + (if Readable(file, fs) then [Watch.Started(file)] else [])
    ensures !Readable(file, fs) ==>
      r.appenders == [DefaultConsole(s)] && r.root == s.root && r.level == RestoredLevel(s, env)
    ensures Readable(file, fs) ==>
      && r.appenders == ConfiguredAppenders(s.agentName, fs[file])
      && r.root == fs[file].root.GetOr(s.root)
      && r.level == ConfiguredLevel(s.agentName, RestoredLevel(s, env), fs[file])
    ensures r.agentName == s.agentName && r.pattern == s.pattern
  {
    LoadAppenders(s.(configFile := file), env, fs)
  }

  /** The destructor: stop the watch thread, shut log4cplus down. */
  function Destroy(s: State): (r: State)
    ensures Valid(s) ==> Valid(r)
    ensures r.watcher.None? && r.appenders == [] && r.root == []
    ensures s.watcher.Some? ==> r.watchLog == s.watchLog + [Watch.Stopped(s.watcher.value)]
    ensures Valid(s) ==> Watch.Live(r.watchLog) == 0
  {
    var w := Watch.Stop(s.watcher, s.watchLog);
    var r := s.(watcher := w.0, watchLog := w.1, appenders := [], root := []);
    assert Valid(s) ==> Watch.Live(r.watchLog) == 0 by {
      if Valid(s) {
        Watch.AtMostOneWatcher(r.watchLog);
      }
    }
    r
  }
}

=== FILE: macros.dfy ===
/** The logging macros of include/fty-log/fty_logger.h: log_*_log on an
    explicit logger, log_* and the fmt-style log* on the default instance,
    and fty::logger::format. */
module Macros {
  import opened Levels
  import opened Logger
  import opened Registry

  /** The level number each macro passes to insertLog: the log4cplus number
      of the level the macro is named after. */
  function MacroLevel(l: Severity): (r: int)
    ensures r == l.Value()
  {
    if l == Trace then 0
    else if l == Debug then 10000
    else if l == Info then 20000
    else if l == Warn then 30000
    else if l == Error then 40000
    else 50000
  }

  /** The macro numbers are log4cplus's own level numbers, so they rise
      strictly with severity, which is the order the gating relies on. */
  lemma MacroLevelsAreLog4cplus(a: Severity, b: Severity)
    ensures MacroLevel(a) == a.Value()
    ensures a.Ordinal() < b.Ordinal() <==> MacroLevel(a) < MacroLevel(b)
  {
  }

  /** log_trace_log ... log_fatal_log in C++: insertLog on the given logger
      at the macro's level. The C++ macro does not check for NULL. */
  function LogExplicit(p: Process, ptr: Ptr, l: Severity, site: Site, render: Rendering): (r: Process)
    requires WellFormed(p) && ptr in p.heap
    ensures WellFormed(r) && r.heap.Keys == p.heap.Keys
    ensures AllOwn(p) ==> AllOwn(r)
    ensures SharedRoot(p) ==> SharedRoot(r)
    ensures SettingsOf(r.heap[ptr]) == SettingsOf(p.heap[ptr])
    ensures render.Rendered? ==>
      r.heap[ptr].sink == p.heap[ptr].sink + (if IsLog(p.heap[ptr], l) then [Record(l.Value(), render.message, site)] else [])
    ensures render.AllocFailed? ==> r == p
    ensures render.NullBuffer? ==>
      r.heap[ptr].sink == p.heap[ptr].sink +
        (if IsLog(p.heap[ptr], l) && IsLog(p.heap[ptr], Error) then [NullBufferRecord] else [])
    ensures r.heap[ptr].(sink := p.heap[ptr].sink) == p.heap[ptr]
    ensures forall q | q in p.heap && q != ptr :: r.heap[q] == p.heap[q]
  {
    var s := InsertLog(p.heap[ptr], MacroLevel(l), site, render);
    assert SettingsOf(s) == SettingsOf(p.heap[ptr]);
    Put(p, ptr, s)
  }

  /** log_trace ... log_fatal: the same on ftylog_getInstance(), whatever
      the process state; no other instance is touched. */
  function LogDefault(p: Process, l: Severity, site: Site, render: Rendering): (r: Process)
    requires WellFormed(p)
    ensures WellFormed(r) && r.heap.Keys == p.heap.Keys
    ensures AllOwn(p) ==> AllOwn(r)
    ensures SharedRoot(p) ==> SharedRoot(r)
    ensures SettingsOf(r.heap[DefaultPtr]) == SettingsOf(p.heap[DefaultPtr])
    ensures render.Rendered? ==>
      r.heap[DefaultPtr].sink == p.heap[DefaultPtr].sink +
        (if IsLog(p.heap[DefaultPtr], l) then [Record(l.Value(), render.message, site)] else [])
    ensures render.AllocFailed? ==> r == p
    ensures render.NullBuffer? ==>
      r.heap[DefaultPtr].sink == p.heap[DefaultPtr].sink +
        (if IsLog(p.heap[DefaultPtr], l) && IsLog(p.heap[DefaultPtr], Error) then [NullBufferRecord] else [])
    ensures r.heap[DefaultPtr].(sink := p.heap[DefaultPtr].sink) == p.heap[DefaultPtr]
    ensures forall q | q in p.heap && q != DefaultPtr :: r.heap[q] == p.heap[q]
  {
    LogExplicit(p, GetInstance(p), l, site, render)
  }

  /** fty::logger::format: a lone template is returned as it is; with
      arguments, fmt::format (a parameter here) renders them. */
  function Format(template: string, args: seq<string>, fmt: (string, seq<string>) -> string): (r: string)
    ensures |args| == 0 ==> r == template
  {
    if |args| == 0 then template else fmt(template, args)
  }

  /** logTrace ... logFatal (fmtlog): format, then hand the result to
      insertLog on the default instance as its printf template, with no
      arguments; `printf` stands for vasprintf on that template. */
  function FmtLog(p: Process, l: Severity, site: Site, template: string, args: seq<string>,
                  fmt: (string, seq<string>) -> string, printf: string -> Rendering): (r: Process)
    requires WellFormed(p)
    ensures WellFormed(r) && r.heap.Keys == p.heap.Keys
    ensures |args| == 0 ==> r == LogDefault(p, l, site, printf(template))
  {
    LogDefault(p, l, site, printf(Format(template, args, fmt)))
  }
}

=== FILE: registry.dfy ===
/** The process: the ManageFtyLog singleton and the C wrappers
    (src/fty_logger.cpp:414-538). Ftylog objects live in a heap addressed
    by pointers; pointer 0 is NULL and the static default instance sits at
    a fixed address for the life of the process. Two pieces of log4cplus
    state are process-wide and are kept so here: the root logger, whose
    appenders every instance sees, and Logger::shutdown(), which init and
    the destructor call and which strips the appenders of every logger. */
module Registry {
  import opened Wrappers
  import opened Levels
  import opened Appenders
  import opened Logger

  type Ptr = nat

  const Null: Ptr := 0

  /** The address of ManageFtyLog::_ftylogdefault. */
  const DefaultPtr: Ptr := 1

  /** The name and configuration file of the default instance
      (FTY_COMMON_LOGGING_DEFAULT_CFG). */
  const DefaultName: string := "ftylog"
  const DefaultConfigFile: string := "/etc/fty/ftylog.cfg"

  /** The live Ftylog objects and the next address `new` hands out. */
  datatype Process = Process(heap: map<Ptr, State>, next: Ptr)

  /** The default instance is live, NULL never is, and every live address
      was handed out. */
  predicate WellFormed(p: Process) {
    && DefaultPtr in p.heap
    && Null !in p.heap
    && DefaultPtr < p.next
    && forall q | q in p.heap :: q < p.next
  }

  /** Every live instance owns its watch thread properly. */
  predicate AllOwn(p: Process) {
    forall q | q in p.heap :: Logger.Valid(p.heap[q])
  }

  /** There is one root logger: every instance's view of it agrees. */
  predicate SharedRoot(p: Process) {
    DefaultPtr in p.heap && forall q | q in p.heap :: p.heap[q].root == p.heap[DefaultPtr].root
  }

  /** Logger::shutdown() as init and the destructor call it: every logger of
      the hierarchy, the root included, loses its appenders; levels and
      watch threads stay. */
  function Shutdown(h: map<Ptr, State>): (r: map<Ptr, State>)
    ensures r.Keys == h.Keys
    ensures forall q | q in h :: r[q] == h[q].(appenders := [], root := [])
  {
    map q | q in h :: h[q].(appenders := [], root := [])
  }

  /** Replace the instance at `ptr` by `s`. The root logger is shared, so
      the root appenders `s` ends with are every instance's. */
  function Commit(h: map<Ptr, State>, ptr: Ptr, s: State): (r: map<Ptr, State>)
    requires ptr in h
    ensures r.Keys == h.Keys && r[ptr] == s
    ensures forall q | q in h && q != ptr :: r[q] == h[q].(root := s.root)
  {
    map q | q in h :: if q == ptr then s else h[q].(root := s.root)
  }

  /** Static initialisation: the default instance is constructed with its
      well-known name and configuration file. */
  function Boot(env: Env, fs: FileSystem): (p: Process)
    ensures WellFormed(p) && AllOwn(p) && SharedRoot(p) && p.heap.Keys == {DefaultPtr}
    ensures p.heap[DefaultPtr].agentName == DefaultName
    ensures p.heap[DefaultPtr].configFile == (if Readable(DefaultConfigFile, fs) then DefaultConfigFile else "")
  {
    Process(map[DefaultPtr := New(DefaultName, DefaultConfigFile, env, fs)], DefaultPtr + 1)
  }

  /** getInstanceFtylog / ftylog_getInstance: the address of the default
      instance, a live non-null object. */
  function GetInstance(p: Process): (r: Ptr)
    requires WellFormed(p)
    ensures r != Null && r in p.heap
  {
    DefaultPtr
  }

  /** Every process state hands out the same default object. */
  lemma GetInstanceIsStable(p: Process, q: Process)
    requires WellFormed(p) && WellFormed(q)
    ensures GetInstance(p) == GetInstance(q)
  {
  }

  /** The heap after instance `ptr` is reinitialised to `s`: the shutdown
      strips every other instance's appenders, and all see the root `s`
      ends with. */
  function Reinit(p: Process, ptr: Ptr, s: State): (r: Process)
    requires WellFormed(p) && ptr in p.heap
    ensures WellFormed(r) && SharedRoot(r) && r.heap.Keys == p.heap.Keys && r.next == p.next
    ensures r.heap[ptr] == s
    ensures AllOwn(p) && Logger.Valid(s) ==> AllOwn(r)
    ensures forall q | q in p.heap && q != ptr :: r.heap[q] == p.heap[q].(appenders := [], root := s.root)
  {
    p.(heap := Commit(Shutdown(p.heap), ptr, s))
  }

  /** The heap after `s` is constructed at the next free address, with the
      same effect of its shutdown on the existing instances. */
  function Admit(p: Process, s: State): (r: (Process, Ptr))
    requires WellFormed(p)
    ensures WellFormed(r.0) && SharedRoot(r.0) && r.1 != Null && r.1 !in p.heap
    ensures r.0.heap.Keys == p.heap.Keys + {r.1} && r.0.heap[r.1] == s
    ensures AllOwn(p) && Logger.Valid(s) ==> AllOwn(r.0)
    ensures forall q | q in p.heap :: r.0.heap[q] == p.heap[q].(appenders := [], root := s.root)
  {
    (Process(Commit(Shutdown(p.heap)[p.next := s], p.next, s), p.next + 1), p.next)
  }

  /** setInstanceFtylog / ftylog_setInstance: change() the default instance
      in place. No object is created or freed, the default keeps its
      address, and it ends with the settings a new instance of that name and
      file would have. Its shutdown strips every other instance's
      appenders, and they all see the root it ends with. */
  function SetInstance(p: Process, name: string, configFile: string, env: Env, fs: FileSystem): (r: Process)
    requires WellFormed(p)
    ensures WellFormed(r) && SharedRoot(r) && r.heap.Keys == p.heap.Keys && r.next == p.next
    ensures AllOwn(p) ==> AllOwn(r)
    ensures GetInstance(r) == GetInstance(p)
    ensures SettingsOf(r.heap[GetInstance(r)]) == SettingsOf(New(name, configFile, env, fs))
    // the default's previous watch thread is stopped; one is started exactly for a readable file
    ensures r.heap[DefaultPtr].watchLog == p.heap[DefaultPtr].watchLog
      + (if p.heap[DefaultPtr].watcher.Some? then [Watch.Stopped(p.heap[DefaultPtr].watcher.value)] else [])
      + (if Readable(configFile, fs) then [Watch.Started(configFile)] else [])
    ensures forall q | q in p.heap && q != GetInstance(p) ::
      r.heap[q] == p.heap[q].(appenders := [], root := r.heap[GetInstance(r)].root)
  {
    var s := Init(p.heap[DefaultPtr], name, configFile, env, fs);
    ChangeIsFreshInit(p.heap[DefaultPtr], name, configFile, env, fs);
    Reinit(p, DefaultPtr, s)
  }

  /** A pointer a C caller may pass: NULL or a live object. */
  predicate Addressable(p: Process, ptr: Ptr) {
    ptr == Null || ptr in p.heap
  }

  /** ftylog_new: construct a new instance at a fresh address. Its init
      shuts log4cplus down, so every existing instance loses its appenders
      and sees the root the new instance ends with; levels, paths and watch
      threads stay. */
  function CNew(p: Process, name: string, configFile: string, env: Env, fs: FileSystem): (r: (Process, Ptr))
    requires WellFormed(p)
    ensures WellFormed(r.0) && SharedRoot(r.0) && r.1 != Null && r.1 !in p.heap
    ensures AllOwn(p) ==> AllOwn(r.0)
    ensures r.0.heap.Keys == p.heap.Keys + {r.1}
    ensures r.0.heap[r.1] == New(name, configFile, env, fs)
    ensures forall q | q in p.heap :: r.0.heap[q] == p.heap[q].(appenders := [], root := r.0.heap[r.1].root)
  {
    Admit(p, New(name, configFile, env, fs))
  }

  /** ftylog_delete: run the destructor and free a heap instance; NULL is
      ignored. The destructor stops the instance's watch thread, so no
      thread outlives it, and its shutdown strips every remaining instance's
      appenders and the root's. The second component is the destroyed
      instance's final state. The static default instance is not heap
      memory and must not be passed. */
  function CDelete(p: Process, ptr: Ptr): (r: (Process, Option<State>))
    requires WellFormed(p) && Addressable(p, ptr) && ptr != DefaultPtr
    ensures WellFormed(r.0)
    ensures AllOwn(p) ==> AllOwn(r.0)
    ensures SharedRoot(p) ==> SharedRoot(r.0)
    ensures ptr == Null ==> r == (p, None)
    ensures ptr != Null ==>
      && r.0.heap.Keys == p.heap.Keys - {ptr}
      && SharedRoot(r.0)
      && (forall q | q in r.0.heap :: r.0.heap[q] == p.heap[q].(appenders := [], root := []))
      && r.1 == Some(Destroy(p.heap[ptr]))
      && r.1.value.watcher.None?
      && (Logger.Valid(p.heap[ptr]) ==> Watch.Live(r.1.value.watchLog) == 0)
  {
    if ptr == Null then (p, None)
    else (p.(heap := Shutdown(p.heap - {ptr})), Some(Destroy(p.heap[ptr])))
  }

  /** Replace the instance at a non-null pointer by `s`, for the C wrappers
      that may change the root logger: every instance sees the root `s`
      ends with. */
  function Sync(p: Process, ptr: Ptr, s: State): (r: Process)
    requires WellFormed(p) && ptr in p.heap
    ensures WellFormed(r) && SharedRoot(r) && r.heap.Keys == p.heap.Keys && r.heap[ptr] == s
    ensures AllOwn(p) && Logger.Valid(s) ==> AllOwn(r)
    ensures forall q | q in p.heap && q != ptr :: r.heap[q] == p.heap[q].(root := s.root)
  {
    p.(heap := Commit(p.heap, ptr, s))
  }

  /** Replace the instance at a non-null pointer, for the C wrappers that
      leave the root logger alone. */
  function Put(p: Process, ptr: Ptr, s: State): (r: Process)
    requires WellFormed(p) && ptr in p.heap
    ensures WellFormed(r) && r.heap.Keys == p.heap.Keys && r.heap[ptr] == s
    ensures AllOwn(p) && Logger.Valid(s) ==> AllOwn(r)
    ensures SharedRoot(p) && s.root == p.heap[ptr].root ==> SharedRoot(r)
    ensures forall q | q in p.heap && q != ptr :: r.heap[q] == p.heap[q]
  {
    p.(heap := p.heap[ptr := s])
  }

  /** ftylog_setConfigFile: NULL is ignored; otherwise the addressed
      instance reloads with the new file. Other instances only see the root
      the file may configure. */
  function CSetConfigFile(p: Process, ptr: Ptr, file: string, env: Env, fs: FileSystem): (r: Process)
    requires WellFormed(p) && Addressable(p, ptr)
    ensures WellFormed(r) && r.heap.Keys == p.heap.Keys
    ensures AllOwn(p) ==> AllOwn(r)
    ensures SharedRoot(p) ==> SharedRoot(r)
    ensures ptr == Null ==> r == p
    ensures ptr != Null ==> r.heap[ptr] == SetConfigFile(p.heap[ptr], file, env, fs)
    ensures ptr != Null ==> r.heap[ptr].configFile == (if Readable(file, fs) then file else "")
    ensures ptr != Null ==> forall q | q in p.heap && q != ptr :: r.heap[q] == p.heap[q].(root := r.heap[ptr].root)
  {
    if ptr == Null then p else Sync(p, ptr, SetConfigFile(p.heap[ptr], file, env, fs))
  }

  /** ftylog_setLogLevelTrace ... ftylog_setLogLevelFatal (the C interface
      has no OFF setter): NULL is ignored. */
  function CSetLogLevel(p: Process, ptr: Ptr, l: Severity): (r: Process)
    requires WellFormed(p) && Addressable(p, ptr)
    ensures WellFormed(r) && r.heap.Keys == p.heap.Keys
    ensures AllOwn(p) ==> AllOwn(r)
    ensures SharedRoot(p) ==> SharedRoot(r)
    ensures ptr == Null ==> r == p
    ensures ptr != Null ==> r.heap[ptr].level == l && SettingsOf(r.heap[ptr]).(level := p.heap[ptr].level) == SettingsOf(p.heap[ptr])
    ensures ptr != Null ==> r.heap[ptr] == p.heap[ptr].(level := l)
    ensures forall q | q in p.heap && q != ptr :: r.heap[q] == p.heap[q]
  {
    if ptr == Null then p else Put(p, ptr, SetLogLevel(p.heap[ptr], l))
  }

  /** ftylog_isLogTrace ... ftylog_isLogFatal: false for NULL, otherwise the
      instance's query, except that ftylog_isLogFatal asks isLogTrace. */
  function CIsLog(p: Process, ptr: Ptr, l: Severity): (r: bool)
    requires WellFormed(p) && Addressable(p, ptr)
    ensures ptr == Null ==> !r
    ensures ptr != Null && l != Fatal ==> (r <==> IsLog(p.heap[ptr], l))
    ensures ptr != Null && l == Fatal ==> (r <==> IsLog(p.heap[ptr], Trace))
  {
    if ptr == Null then false
    else if l == Fatal then IsLog(p.heap[ptr], Trace)
    else IsLog(p.heap[ptr], l)
  }

  /** Because ftylog_isLogFatal asks isLogTrace, it disagrees with isLogFatal
      exactly when the level is DEBUG, INFO, WARN, ERROR or FATAL. */
  lemma CIsLogFatalAsksTrace(p: Process, ptr: Ptr)
    requires WellFormed(p) && ptr in p.heap && ptr != Null
    ensures CIsLog(p, ptr, Fatal) != IsLog(p.heap[ptr], Fatal) <==>
      p.heap[ptr].level in {Debug, Info, Warn, Error, Fatal}
  {
  }

  /** ftylog_insertLog: NULL is ignored; otherwise insertLog on the
      addressed instance, leaving every other instance alone. */
  function CInsertLog(p: Process, ptr: Ptr, level: int, site: Site, render: Rendering): (r: Process)
    requires WellFormed(p) && Addressable(p, ptr)
    ensures WellFormed(r) && r.heap.Keys == p.heap.Keys
    ensures AllOwn(p) ==> AllOwn(r)
    ensures SharedRoot(p) ==> SharedRoot(r)
    ensures ptr == Null ==> r == p
    ensures ptr != Null ==> SettingsOf(r.heap[ptr]) == SettingsOf(p.heap[ptr])
    ensures ptr != Null && render.Rendered? ==>
      r.heap[ptr].sink == p.heap[ptr].sink + (if IsLogLevel(p.heap[ptr], level) then [Record(level, render.message, site)] else [])
    ensures ptr != Null && render.AllocFailed? ==> r == p
    ensures ptr != Null && render.NullBuffer? ==>
      r.heap[ptr].sink == p.heap[ptr].sink +
        (if IsLogLevel(p.heap[ptr], level) && IsLogLevel(p.heap[ptr], Error.Value()) then [NullBufferRecord] else [])
    ensures ptr != Null ==> r.heap[ptr].(sink := p.heap[ptr].sink) == p.heap[ptr]
    ensures forall q | q in p.heap && q != ptr :: r.heap[q] == p.heap[q]
  {
    if ptr == Null then p else Put(p, ptr, InsertLog(p.heap[ptr], level, site, render))
  }

  /** ftylog_setVerboseMode (and the misspelt ftylog_setVeboseMode): NULL is
      ignored; otherwise the addressed instance goes verbose, and every
      instance sees the root without its first console appender. */
  function CSetVerboseMode(p: Process, ptr: Ptr): (r: Process)
    requires WellFormed(p) && Addressable(p, ptr)
    ensures WellFormed(r) && r.heap.Keys == p.heap.Keys
    ensures AllOwn(p) ==> AllOwn(r)
    ensures SharedRoot(p) ==> SharedRoot(r)
    ensures ptr == Null ==> r == p
    ensures ptr != Null ==> r.heap[ptr] == SetVerboseMode(p.heap[ptr])
    ensures ptr != Null ==>
      && r.heap[ptr].level == Trace
      && |r.heap[ptr].appenders| > 0
      && r.heap[ptr].appenders[|r.heap[ptr].appenders| - 1] == VerboseConsole(p.heap[ptr])
    ensures ptr != Null ==> forall q | q in p.heap && q != ptr :: r.heap[q] == p.heap[q].(root := RemoveFirstConsole(p.heap[ptr].root))
  {
    if ptr == Null then p else Sync(p, ptr, SetVerboseMode(p.heap[ptr]))
  }
}

=== FILE: watch.dfy ===
/** Ownership of the ConfigureAndWatchThread an Ftylog holds in
    _watchConfigFile. The thread itself (polling the file every 60 s) is not
    modelled: only the slot, and the history of threads started and
    stopped, from which "at most one watcher at a time, never orphaned" is
    stated. */
module Watch {
  import opened Wrappers

  datatype WatchEvent = Started(path: string) | Stopped(path: string)

  /** Starts and stops alternate, beginning with a start, and every stop
      stops the thread the previous event started. */
  predicate Alternating(es: seq<WatchEvent>) {
    && (forall i | 0 <= i < |es| :: es[i].Started? <==> i % 2 == 0)
    && (forall i | 0 < i < |es| :: es[i].Stopped? ==> es[i].path == es[i - 1].path)
  }

  /** The watcher alive after a history: the one started last, unless it
      was stopped since. */
  function Running(es: seq<WatchEvent>): Option<string> {
    if |es| == 0 || es[|es| - 1].Stopped? then None else Some(es[|es| - 1].path)
  }

  /** The slot agrees with the history, and the history is well formed. */
  predicate Owns(slot: Option<string>, es: seq<WatchEvent>) {
    Alternating(es) && slot == Running(es)
  }

  /** Threads started minus threads stopped. */
  function Live(es: seq<WatchEvent>): int {
    if |es| == 0 then 0
    else Live(es[..|es| - 1]) + (if es[|es| - 1].Started? then 1 else -1)
  }

  /** Delete the running thread, if any (the `delete _watchConfigFile`
      blocks of init, loadAppenders and the destructor). */
  function Stop(slot: Option<string>, es: seq<WatchEvent>): (r: (Option<string>, seq<WatchEvent>))
    ensures r.0 == None
    ensures Owns(slot, es) ==> Owns(r.0, r.1)
    ensures r.1 == es + (if slot.Some? then [Stopped(slot.value)] else [])
  {
    if slot.Some? then (None, es + [Stopped(slot.value)]) else (slot, es)
  }

  /** Start a thread watching `path`; it is only called once the slot is
      empty, which is what keeps the history well formed. */
  function Start(slot: Option<string>, es: seq<WatchEvent>, path: string): (r: (Option<string>, seq<WatchEvent>))
    ensures r.0 == Some(path)
    ensures Owns(slot, es) && slot.None? ==> Owns(r.0, r.1)
    ensures r.1 == es + [Started(path)]
  {
    (Some(path), es + [Started(path)])
  }

  /** In a well-formed history at most one watcher is ever alive: after
      every prefix the number of live threads is 0 or 1, and it is 1 exactly
      when a thread is running. */
  lemma {:induction false} AtMostOneWatcher(es: seq<WatchEvent>)
    requires Alternating(es)
    ensures Live(es) == (if Running(es).Some? then 1 else 0)
    ensures forall k | 0 <= k <= |es| :: 0 <= Live(es[..k]) <= 1
  {
    if |es| != 0 {
      var init := es[..|es| - 1];
      assert Alternating(init);
      AtMostOneWatcher(init);
      assert Running(init).Some? <==> |init| % 2 == 1;
      forall k | 0 <= k <= |es|
        ensures 0 <= Live(es[..k]) <= 1
      {
        if k < |es| {
          assert es[..k] == init[..k];
        } else {
          assert es[..k] == es;
        }
      }
    }
  }
}

=== FILE: wrappers.dfy ===
/** Optional values: a C pointer that may be null, an environment variable
    that may be unset, a configuration entry that may be absent. */
module Wrappers {

  datatype Option<+T> = None | Some(value: T) {

    /** The value in Some, or `default` when None. */
    function GetOr(default: T): T {
      match this
      case Some(v) => v
      case None => default
    }
  }
}
